=== FILE: README.md ===
# NexTalk client state machines in Dafny

NexTalk is a chat and social web client whose screens are React components over vendor
services (auth, database, storage, real-time video). Three of its components carry small
event-driven state machines of their own. This project models each one as an immutable
state record with pure transition functions, and proves the behaviour the components
promise:

- **Story viewer** (`StatusViewer`): a cursor over one user's stories. It plays each
  story with a progress bar, pauses, steps forward and back, and takes a reply. At either
  end of the list it hands control to the page's `onNext`, `onPrev` or `onClose` callback.
- **Chat composer** (`ChatInput`): a draft, a Send button, Enter versus Shift+Enter, and
  two pop-up panels (attachments, emojis) that are never open together. Submitting sends
  the trimmed draft, only if it is not blank.
- **User menu** (`UserMenu`): the avatar with its initial fallback, a dropdown with a
  settings panel (visible, draggable, theme), the sidebar and floating placements, drag and
  drop, and the rules for saving settings and position to browser storage.

Modules: `Wrappers` (`Option`), `Text` (JavaScript's `trim` and one-character
`toUpperCase`), `StatusViewer`, `ChatInput`, `UserMenu`, one file each. Callbacks and
vendor calls are outputs of the transitions (`Callback`, `sent`, `Effect`). Timers, the
auth service, the DOM and browser storage are inputs: events and values passed in.

## Model

| member | source | states |
|---|---|---|
| Text.TrimStart | OneDrive/Desktop/NexusChat/Newfolder/nextalk/src/components/chat/ChatInput.tsx:25-26 | the result is a suffix of the input; everything removed is whitespace; the result does not start with whitespace |
| Text.TrimEnd | OneDrive/Desktop/NexusChat/Newfolder/nextalk/src/components/chat/ChatInput.tsx:25-26 | the result is a prefix of the input; everything removed is whitespace; the result does not end with whitespace |
| Text.Trim | OneDrive/Desktop/NexusChat/Newfolder/nextalk/src/components/chat/ChatInput.tsx:25-26 | the result has no whitespace at either end, and it is empty exactly when the input is all whitespace |
| Text.TrimIsMiddleSlice | OneDrive/Desktop/NexusChat/Newfolder/nextalk/src/components/chat/ChatInput.tsx:25-26 | the result is a contiguous slice of the input, and only whitespace lies before and after it |
| Text.TrimUnique | OneDrive/Desktop/NexusChat/Newfolder/nextalk/src/components/chat/ChatInput.tsx:26 | any string with no whitespace at either end, placed between two whitespace runs, is exactly what trim returns |
| Text.TrimIdempotent | OneDrive/Desktop/NexusChat/Newfolder/nextalk/src/components/chat/ChatInput.tsx:26 | trimming an already trimmed message changes nothing |
| Text.ToUpperAscii | OneDrive/Desktop/NexusChat/Newfolder/nextalk/src/components/common/UserMenu.tsx:112 | the result is never a lower-case ASCII letter; lower-case letters map to their capitals; every other character is kept |
| StatusViewer.Settle | OneDrive/Desktop/NexusChat/Newfolder/nextalk/src/components/status/StatusViewer.tsx:71-80 | with the story list and callbacks fixed, progress restarts at zero exactly when the story index or the pause flag changed; nothing else is touched |
| StatusViewer.GoToNext | OneDrive/Desktop/NexusChat/Newfolder/nextalk/src/components/status/StatusViewer.tsx:38-46 | before the last story: index plus one, no callback; at the last story: index kept and onNext fires if given, onClose otherwise, never both; never onPrev |
| StatusViewer.GoToPrev | OneDrive/Desktop/NexusChat/Newfolder/nextalk/src/components/status/StatusViewer.tsx:82-88 | after the first story: index minus one, no callback; at the first story: onPrev fires if given, else nothing; never onClose or onNext |
| StatusViewer.OnTick | OneDrive/Desktop/NexusChat/Newfolder/nextalk/src/components/status/StatusViewer.tsx:53-66 | a tick while paused changes nothing; a partial tick sets the progress; a completing tick sets progress to 100 and performs the next-story step |
| StatusViewer.TogglePause | OneDrive/Desktop/NexusChat/Newfolder/nextalk/src/components/status/StatusViewer.tsx:175-177 | a click on the story flips the pause flag and restarts the progress bar |
| StatusViewer.OpenReplyBox | OneDrive/Desktop/NexusChat/Newfolder/nextalk/src/components/status/StatusViewer.tsx:236-244 | opening the reply box always shows it and pauses playback |
| StatusViewer.HandleReply | OneDrive/Desktop/NexusChat/Newfolder/nextalk/src/components/status/StatusViewer.tsx:90-97 | a reply whose trimmed text is empty changes nothing; otherwise the text is cleared and the box hidden, playback stays paused |
| StatusViewer.Apply | OneDrive/Desktop/NexusChat/Newfolder/nextalk/src/components/status/StatusViewer.tsx:101-244 | every user or timer event keeps the cursor on an existing story |
| StatusViewer.RunKeepsValid | OneDrive/Desktop/NexusChat/Newfolder/nextalk/src/components/status/StatusViewer.tsx:38-46 | from a cursor on an existing story, any event sequence keeps it on an existing story |
| StatusViewer.InitialRunStaysInBounds | OneDrive/Desktop/NexusChat/Newfolder/nextalk/src/components/status/StatusViewer.tsx:29-31 | starting at index 0 over a non-empty list, the index stays below the list length whatever happens |
| StatusViewer.RunKeepsProgressInRange | OneDrive/Desktop/NexusChat/Newfolder/nextalk/src/components/status/StatusViewer.tsx:53-65 | progress stays between 0 and 100 as long as the timer reports non-negative elapsed time |
| StatusViewer.PrevNeverLeaves | OneDrive/Desktop/NexusChat/Newfolder/nextalk/src/components/status/StatusViewer.tsx:82-88 | repeated steps back only ever fire onPrev; from story i, k <= i steps back land on story i-k without any callback |
| StatusViewer.NextAdvances | OneDrive/Desktop/NexusChat/Newfolder/nextalk/src/components/status/StatusViewer.tsx:38-40 | k steps forward from story i reach story i+k without any callback while that story exists |
| StatusViewer.WalkToEnd | OneDrive/Desktop/NexusChat/Newfolder/nextalk/src/components/status/StatusViewer.tsx:38-46 | from the first story, count-1 steps reach the last story, and the next step fires exactly one of onNext and onClose |
| StatusViewer.NextThenPrev | OneDrive/Desktop/NexusChat/Newfolder/nextalk/src/components/status/StatusViewer.tsx:38-46 | a step back after a step forward that did not hit the end returns to the same story with its progress restarted, everything else unchanged and no callback fired |
| StatusViewer.PrevThenNext | OneDrive/Desktop/NexusChat/Newfolder/nextalk/src/components/status/StatusViewer.tsx:82-88 | a step forward after a step back that did not hit the start returns to the same story with its progress restarted, everything else unchanged and no callback fired |
| StatusViewer.Segments | OneDrive/Desktop/NexusChat/Newfolder/nextalk/src/components/status/StatusViewer.tsx:113-131 | one bar per story: bars before the current story are full, bars after it are empty, and the current story's bar shows its progress |
| StatusViewer.SegmentCounts | OneDrive/Desktop/NexusChat/Newfolder/nextalk/src/components/status/StatusViewer.tsx:113-131 | exactly index bars are full, exactly one (the current story's) shows the progress, and the remaining count-index-1 are empty |
| StatusViewer.ContentOf | OneDrive/Desktop/NexusChat/Newfolder/nextalk/src/components/status/StatusViewer.tsx:188-203 | a story shows its image if it has a non-empty one, else its non-empty text, else nothing; an image is shown only from a non-empty URL, and an empty image with a non-empty text always shows the text |
| StatusViewer.CurrentStory | OneDrive/Desktop/NexusChat/Newfolder/nextalk/src/components/status/StatusViewer.tsx:99 | the story on screen is the one whose progress bar is the partially filled one, and it exists because Valid requires a non-empty list and an index below its length |
| ChatInput.CanSend | OneDrive/Desktop/NexusChat/Newfolder/nextalk/src/components/chat/ChatInput.tsx:142-149 | the Send button is enabled exactly when the draft is not all whitespace, that is, when its trim is non-empty |
| ChatInput.Submit | OneDrive/Desktop/NexusChat/Newfolder/nextalk/src/components/chat/ChatInput.tsx:22-29 | a blank draft sends nothing and is kept; otherwise exactly trim(draft) is sent and the draft becomes empty; a sent message is non-empty and trimmed |
| ChatInput.KeyDown | OneDrive/Desktop/NexusChat/Newfolder/nextalk/src/components/chat/ChatInput.tsx:31-36 | Enter without Shift acts as submit; for every other key, Shift+Enter included, the keydown handler sends nothing and changes nothing (the typed character arrives as a separate Type event) |
| ChatInput.AddEmoji | OneDrive/Desktop/NexusChat/Newfolder/nextalk/src/components/chat/ChatInput.tsx:89-92 | the draft becomes the old draft followed by the emoji; the panels are unchanged |
| ChatInput.ToggleAttachments | OneDrive/Desktop/NexusChat/Newfolder/nextalk/src/components/chat/ChatInput.tsx:103-110 | the attachment panel flips, the emoji panel closes, the draft is kept |
| ChatInput.ToggleEmojis | OneDrive/Desktop/NexusChat/Newfolder/nextalk/src/components/chat/ChatInput.tsx:131-138 | the emoji panel flips, the attachment panel closes, the draft is kept |
| ChatInput.Apply | OneDrive/Desktop/NexusChat/Newfolder/nextalk/src/components/chat/ChatInput.tsx:102-137 | only the Send button or Enter without Shift can send, and what is sent is non-empty and trimmed |
| ChatInput.RunSendsWellFormed | OneDrive/Desktop/NexusChat/Newfolder/nextalk/src/components/chat/ChatInput.tsx:22-29 | whatever the user does, every message handed to onSendMessage is non-empty and has no surrounding whitespace |
| ChatInput.RunKeepsOnePanel | OneDrive/Desktop/NexusChat/Newfolder/nextalk/src/components/chat/ChatInput.tsx:106-109 | whatever the user does, the two panels are never open together |
| ChatInput.InitialRunKeepsOnePanel | OneDrive/Desktop/NexusChat/Newfolder/nextalk/src/components/chat/ChatInput.tsx:17-19 | starting from the initial state (empty draft, both panels closed), no sequence of events opens both panels at once |
| ChatInput.RunSendsAtMostOnePerEvent | OneDrive/Desktop/NexusChat/Newfolder/nextalk/src/components/chat/ChatInput.tsx:22-36 | no event sends more than one message |
| ChatInput.TypeThenEnter | OneDrive/Desktop/NexusChat/Newfolder/nextalk/src/components/chat/ChatInput.tsx:115-119 | typing a text and pressing Enter sends trim(text) and clears the draft, or sends nothing and keeps a blank text |
| ChatInput.ShiftEnterNeverSends | OneDrive/Desktop/NexusChat/Newfolder/nextalk/src/components/chat/ChatInput.tsx:32 | the keydown handler never sends on Shift+Enter and leaves the composer as it was; the newline itself arrives as a separate Type event |
| ChatInput.BlankSubmitIsIdle | OneDrive/Desktop/NexusChat/Newfolder/nextalk/src/components/chat/ChatInput.tsx:25 | submitting a blank draft, even twice, sends nothing and changes nothing |
| ChatInput.SubmitClearsDraft | OneDrive/Desktop/NexusChat/Newfolder/nextalk/src/components/chat/ChatInput.tsx:25-28 | a second submit right after a successful one sends nothing |
| ChatInput.EmojiEnablesSend | OneDrive/Desktop/NexusChat/Newfolder/nextalk/src/components/chat/ChatInput.tsx:89-90 | appending an emoji that is not whitespace always enables the Send button |
| UserMenu.ToggleSetting | OneDrive/Desktop/NexusChat/Newfolder/nextalk/src/components/common/UserMenu.tsx:130-135 | with a value, field k becomes that value; without one, boolean field k is negated; every other field is unchanged |
| UserMenu.ToggleTwiceRestores | OneDrive/Desktop/NexusChat/Newfolder/nextalk/src/components/common/UserMenu.tsx:225-248 | flipping the visible or draggable switch twice restores the settings |
| UserMenu.SetIsIdempotent | OneDrive/Desktop/NexusChat/Newfolder/nextalk/src/components/common/UserMenu.tsx:258-275 | choosing a theme twice is choosing it once; choosing the current one changes nothing |
| UserMenu.Mount | OneDrive/Desktop/NexusChat/Newfolder/nextalk/src/components/common/UserMenu.tsx:25-41 | a fresh menu is closed, not dragging, at the origin, with settings draggable, visible and the default theme, and an empty profile |
| UserMenu.OrElse | OneDrive/Desktop/NexusChat/Newfolder/nextalk/src/components/common/UserMenu.tsx:49-51 | a missing or empty optional string falls back to the default, a non-empty one is kept |
| UserMenu.InfoFromAuth | OneDrive/Desktop/NexusChat/Newfolder/nextalk/src/components/common/UserMenu.tsx:44-55 | the name defaults to "User", the e-mail to "No email", the photo to empty, the uid is copied; name and e-mail are never empty |
| UserMenu.GetInitial | OneDrive/Desktop/NexusChat/Newfolder/nextalk/src/components/common/UserMenu.tsx:109-117 | one character: the upper-cased first letter of the name if any, else of the e-mail if any, else "?" |
| UserMenu.SignedInInitial | OneDrive/Desktop/NexusChat/Newfolder/nextalk/src/components/common/UserMenu.tsx:36-53 | before sign-in the initial is "?"; after it, it comes from the reported name, or is "U" when the name is missing, never from the e-mail |
| UserMenu.AvatarOf | OneDrive/Desktop/NexusChat/Newfolder/nextalk/src/components/common/UserMenu.tsx:155-167 | the avatar is the photo exactly when the photo URL is non-empty, otherwise the initial |
| UserMenu.LoadSaved | OneDrive/Desktop/NexusChat/Newfolder/nextalk/src/components/common/UserMenu.tsx:60-74 | saved settings and position replace the defaults; with no saved position a floating menu goes 80 pixels in from the bottom-right corner; nothing else changes |
| UserMenu.Persist | OneDrive/Desktop/NexusChat/Newfolder/nextalk/src/components/common/UserMenu.tsx:76-83 | settings are always saved; the position only when it is not the origin and the menu floats; the sidebar menu never writes a position |
| UserMenu.PersistThenLoad | OneDrive/Desktop/NexusChat/Newfolder/nextalk/src/components/common/UserMenu.tsx:60-83 | the next mount reloads the saved settings, and the position whenever it was saved |
| UserMenu.PersistNeverWritesOrigin | OneDrive/Desktop/NexusChat/Newfolder/nextalk/src/components/common/UserMenu.tsx:80-82 | the origin is never written as the saved position |
| UserMenu.PanelOf | OneDrive/Desktop/NexusChat/Newfolder/nextalk/src/components/common/UserMenu.tsx:150-280 | the options panel shows exactly when it is open, and it has the draggable row only when the menu floats |
| UserMenu.Render | OneDrive/Desktop/NexusChat/Newfolder/nextalk/src/components/common/UserMenu.tsx:137-145 | an invisible menu renders nothing in either placement; in the sidebar the dropdown shows when open; floating, it shows when open and not being dragged |
| UserMenu.SidebarLabel | OneDrive/Desktop/NexusChat/Newfolder/nextalk/src/components/common/UserMenu.tsx:307-313 | the sidebar shows the name or "My Profile", then the e-mail with the expanded theme or a fixed hint otherwise |
| UserMenu.ClickOutside | OneDrive/Desktop/NexusChat/Newfolder/nextalk/src/components/common/UserMenu.tsx:86-98 | a press outside a rendered menu closes the dropdown and the options panel; otherwise nothing changes |
| UserMenu.ClickAvatar | OneDrive/Desktop/NexusChat/Newfolder/nextalk/src/components/common/UserMenu.tsx:337-341 | in the sidebar the avatar toggles the dropdown; floating, it does so only when no drag is in progress |
| UserMenu.HandleDragEnd | OneDrive/Desktop/NexusChat/Newfolder/nextalk/src/components/common/UserMenu.tsx:119-128 | the drop point becomes the position and the drag ends; nothing else changes |
| UserMenu.Available | OneDrive/Desktop/NexusChat/Newfolder/nextalk/src/components/common/UserMenu.tsx:150-341 | an event can occur only when the control that raises it is on screen: the dropdown's links and buttons while it is rendered, the options panel's Back, visibility, theme and draggable controls only while the dropdown is open on the options panel, the main panel's links, options and sign-out only while it is open on the main panel, the avatar exactly when the menu is visible, drags only on the visible, draggable floating menu; while hidden only the auth and document listeners fire, the sidebar menu never drags, and the links, sign-out and visibility toggle need an open dropdown |
| UserMenu.Apply | OneDrive/Desktop/NexusChat/Newfolder/nextalk/src/components/common/UserMenu.tsx:182-203 | onClose is called only by a profile or settings link and only when given; sign-out is requested exactly by the sign-out button |
| UserMenu.HiddenEventsKeepSettings | OneDrive/Desktop/NexusChat/Newfolder/nextalk/src/components/common/UserMenu.tsx:137-145 | while the menu renders nothing, no event that can still fire changes the settings |
| UserMenu.HiddenStaysHidden | OneDrive/Desktop/NexusChat/Newfolder/nextalk/src/components/common/UserMenu.tsx:225-226 | once hidden, no sequence of events the interface can raise makes the menu render again |
| UserMenu.HiddenSurvivesRemount | OneDrive/Desktop/NexusChat/Newfolder/nextalk/src/components/common/UserMenu.tsx:61-65 | with this menu as the only writer of the stored settings, a hidden menu is saved hidden and mounts hidden again, in either placement |
| UserMenu.HideFromOptions | OneDrive/Desktop/NexusChat/Newfolder/nextalk/src/components/common/UserMenu.tsx:225-226 | turning visibility off from the options panel hides the menu at once |
| UserMenu.OutsideClickClosesDropdown | OneDrive/Desktop/NexusChat/Newfolder/nextalk/src/components/common/UserMenu.tsx:87-91 | a press outside a visible menu closes both the dropdown and the options panel and keeps the menu on screen |
| UserMenu.RunKeepsSidebarStill | OneDrive/Desktop/NexusChat/Newfolder/nextalk/src/components/common/UserMenu.tsx:284-320 | the sidebar menu never enters a drag, whatever happens |
| UserMenu.DragAndDrop | OneDrive/Desktop/NexusChat/Newfolder/nextalk/src/components/common/UserMenu.tsx:327-337 | a drag hides the floating dropdown; the drop moves the menu to the drop point, ends the drag, restores the dropdown if it was open, and the point is saved unless it is the origin |
| UserMenu.AvatarIgnoredWhileDragging | OneDrive/Desktop/NexusChat/Newfolder/nextalk/src/components/common/UserMenu.tsx:341 | an avatar click during a drag changes nothing |
| UserMenu.LinkClosesMenu | OneDrive/Desktop/NexusChat/Newfolder/nextalk/src/components/common/UserMenu.tsx:182-189 | the profile and settings links close the dropdown and call onClose exactly when it was given |

## Left out

- Timers and wall-clock time: `setInterval`, `Date.now` and the floating-point percentage `elapsed / storyDuration * 100`. A `Tick(percent)` event carries the percentage the timer computed. The 5-second story duration and the 50 ms interval therefore do not appear.
- The 100 ms delay before focusing the reply input, and all DOM focus handling.
- Where replies go: the reply is only logged to the console, so `HandleReply` clears the box and emits nothing.
- Vendor and browser calls: Firebase `onAuthStateChanged` and `signOut`, router navigation and the `localStorage` JSON encoding. They become events (`AuthChanged`), effects (`SignOutAndLeave`, `CallOnClose`) and the typed `Store` value. The model does not cover malformed stored JSON.
- The order of the mount-time effects: the save effect first runs with the default settings, before the loaded settings take effect, and writes them back on the next render. The model applies `LoadSaved` and then `Persist` once.
- UserMenu.ToggleSetting: requires the value to have the field's type and forbids negating `theme`. The TypeScript signature (`value?: any`) would store a boolean in `theme`. No caller in the component does either.
- UserMenu.GetInitial: upper-cases ASCII letters only. JavaScript's `toUpperCase` maps other letters too, and may return more than one character (for example for "ß"). The model also takes the first Unicode code point of the name or e-mail. JavaScript's `[0]` takes the first UTF-16 code unit, so for a name starting outside the Basic Multilingual Plane ("😊Bob") the component shows a lone high surrogate (U+D83D), and the model shows the whole character.
- Text.Trim: works on Unicode code points. JavaScript strings are UTF-16 code units; the whitespace set stripped is the full ECMAScript one.
- The emoji palette: the source lists 14 emojis. `AddEmoji` takes any string, so the model covers every palette.
- Buttons with no behaviour: the attachment options and the heart reaction.
- Styling, animation and drag physics (framer-motion). For the story viewer's user avatar, the `/default-avatar.png` fallback is a presentational default.
- Drag gestures reach the model only while the floating menu is visible and draggable, because framer-motion only starts a drag on such an element.
- The unused optional `position` field of the settings type.
- The story list's per-story `seen` flag: the viewer never reads or writes it, so `Story` has no such field.
- StatusViewer.Settle: the model fixes the story count and the callbacks for a whole run. In the component a new `stories.length`, `onNext` or `onClose` also rebuilds `goToNextStory` and `startProgress`, which zeroes progress and restarts the timer. The model does not cover that restart.
- An empty story list: the component reads `stories[currentIndex]` without a guard and fails on an empty list, so `Valid` requires at least one story. The only page that opens the viewer passes a non-empty list.
- Text.ToUpperAscii: upper-cases the ASCII letters `a`-`z` only. JavaScript's `toUpperCase` also maps other letters, sometimes to more than one character.
- ChatInput.KeyDown: models only the keydown handler. The text a key adds to the draft arrives as a separate `Type` event. The `preventDefault` call on Enter, which keeps the newline out of the draft, is modelled by there being no such `Type` event.
- UserMenu.HiddenSurvivesRemount: the model has one menu instance and one writer of the stored settings. The application mounts two at once, the floating menu and the sidebar one, each with its own state. Both write the same `userMenuSettings` entry, so a change in the other instance can overwrite a saved `isVisible: false` with its own `true`.

=== FILE: chat_input.dfy ===
/**
 * The chat composer: a draft message, a Send button, and two pop-up panels (attachments
 * and emojis) of which at most one is open. Submitting sends the trimmed draft, if it is
 * not blank, to the page's `onSendMessage` and clears the draft.
 */
module ChatInput {
  import opened Wrappers
  import opened Text

  datatype Composer = Composer(draft: string, showAttachments: bool, showEmojis: bool)

  /** A key press in the text area: the key's name and whether Shift was held. */
  datatype KeyPress = KeyPress(key: string, shift: bool)

  /** The composer after an event, and the message handed to `onSendMessage`, if any. */
  datatype Outcome = Outcome(composer: Composer, sent: Option<string>)

  datatype Event =
    | Type(text: string)        // the text area's change event
    | Press(press: KeyPress)    // a key down in the text area
    | SubmitForm                // the Send button
    | PickEmoji(emoji: string)  // a button of the emoji panel
    | AttachmentsButton
    | EmojisButton

  const Initial: Composer := Composer("", false, false)

  /** The two pop-up panels are never open together. */
  predicate AtMostOnePanel(c: Composer) {
    !(c.showAttachments && c.showEmojis)
  }

  /** The Send button is enabled exactly when the trimmed draft is not empty. */
  function CanSend(c: Composer): (r: bool)
    ensures r <==> !IsBlank(c.draft)
  {
    Trim(c.draft) != ""
  }

  /** `handleSubmit`. */
  function Submit(c: Composer): (r: Outcome)
    ensures IsBlank(c.draft) ==> r == Outcome(c, None)
    ensures !IsBlank(c.draft) ==> r == Outcome(c.(draft := ""), Some(Trim(c.draft)))
    ensures r.sent.Some? <==> CanSend(c)
    ensures r.sent.Some? ==> r.sent.value != "" && IsTrimmed(r.sent.value)
  {
    var message := Trim(c.draft);
    if message != "" then Outcome(c.(draft := ""), Some(message)) else Outcome(c, None)
  }

  /** Enter without Shift submits; Shift+Enter (a new line) and every other key do not. */
  predicate IsSubmitKey(k: KeyPress) {
    k.key == "Enter" && !k.shift
  }

  /** `handleKeyDown`. */
  function KeyDown(c: Composer, k: KeyPress): (r: Outcome)
    ensures IsSubmitKey(k) ==> r == Submit(c)
    ensures !IsSubmitKey(k) ==> r == Outcome(c, None)
  {
    if IsSubmitKey(k) then Submit(c) else Outcome(c, None)
  }

  /** An emoji button appends its emoji to the draft; the panels stay as they are. */
  function AddEmoji(c: Composer, emoji: string): (r: Composer)
    ensures |r.draft| == |c.draft| + |emoji|
    ensures r.draft[..|c.draft|] == c.draft && r.draft[|c.draft|..] == emoji
    ensures r.showAttachments == c.showAttachments && r.showEmojis == c.showEmojis
  {
    c.(draft := c.draft + emoji)
  }

  /** The paperclip button flips the attachment panel and closes the emoji panel. */
  function ToggleAttachments(c: Composer): (r: Composer)
    ensures r.showAttachments == !c.showAttachments && !r.showEmojis
    ensures r.draft == c.draft
    ensures AtMostOnePanel(r)
  {
    c.(showAttachments := !c.showAttachments, showEmojis := false)
  }

  /** The smiley button flips the emoji panel and closes the attachment panel. */
  function ToggleEmojis(c: Composer): (r: Composer)
    ensures r.showEmojis == !c.showEmojis && !r.showAttachments
    ensures r.draft == c.draft
    ensures AtMostOnePanel(r)
  {
    c.(showEmojis := !c.showEmojis, showAttachments := false)
  }

  /** The composer's reaction to one event: only a submit (the Send button or Enter without
      Shift) can send, and what it sends is non-empty and trimmed. */
  function Apply(c: Composer, e: Event): (r: Outcome)
    ensures r.sent.Some? ==> e == SubmitForm || (e.Press? && IsSubmitKey(e.press))
    ensures r.sent.Some? ==> WellFormedMessage(r.sent.value)
  {
    match e
    case Type(t) => Outcome(c.(draft := t), None)
    case Press(k) => KeyDown(c, k)
    case SubmitForm => Submit(c)
    case PickEmoji(emoji) => Outcome(AddEmoji(c, emoji), None)
    case AttachmentsButton => Outcome(ToggleAttachments(c), None)
    case EmojisButton => Outcome(ToggleEmojis(c), None)
  }

  /** The composer after a sequence of events, with the messages sent, in order. */
  function Run(c: Composer, events: seq<Event>): (r: (Composer, seq<string>))
    decreases |events|
  {
    if events == [] then (c, [])
    else
      var o := Apply(c, events[0]);
      var rest := Run(o.composer, events[1..]);
      (rest.0, (if o.sent.Some? then [o.sent.value] else []) + rest.1)
  }

  /** A message the composer hands on is never empty and has no surrounding whitespace. */
  predicate WellFormedMessage(m: string) {
    m != "" && IsTrimmed(m)
  }

  predicate AllWellFormed(log: seq<string>) {
    forall i :: 0 <= i < |log| ==> WellFormedMessage(log[i])
  }

  /** Whatever the user does, every message sent is non-empty and trimmed. */
  lemma {:induction false} RunSendsWellFormed(c: Composer, events: seq<Event>)
    ensures AllWellFormed(Run(c, events).1)
    decreases |events|
  {
    if events != [] {
      var o := Apply(c, events[0]);
      RunSendsWellFormed(o.composer, events[1..]);
      var head: seq<string> := if o.sent.Some? then [o.sent.value] else [];
      AllWellFormedConcat(head, Run(o.composer, events[1..]).1);
    }
  }

  lemma AllWellFormedConcat(a: seq<string>, b: seq<string>)
    requires AllWellFormed(a) && AllWellFormed(b)
    ensures AllWellFormed(a + b)
  {
    forall i | 0 <= i < |a + b| ensures WellFormedMessage((a + b)[i]) {
      if i >= |a| { assert (a + b)[i] == b[i - |a|]; }
    }
  }

  /** Whatever the user does, the two panels are never open together. */
  lemma {:induction false} RunKeepsOnePanel(c: Composer, events: seq<Event>)
    requires AtMostOnePanel(c)
    ensures AtMostOnePanel(Run(c, events).0)
    decreases |events|
  {
    if events != [] {
      RunKeepsOnePanel(Apply(c, events[0]).composer, events[1..]);
    }
  }

  /** The composer starts with both panels closed, so they are never open together. */
  lemma InitialRunKeepsOnePanel(events: seq<Event>)
    ensures !(Run(Initial, events).0.showAttachments && Run(Initial, events).0.showEmojis)
  {
    RunKeepsOnePanel(Initial, events);
  }

  /** Each event sends at most one message. */
  lemma {:induction false} RunSendsAtMostOnePerEvent(c: Composer, events: seq<Event>)
    ensures |Run(c, events).1| <= |events|
    decreases |events|
  {
    if events != [] {
      RunSendsAtMostOnePerEvent(Apply(c, events[0]).composer, events[1..]);
    }
  }

  /** Typing a draft and pressing Enter sends exactly the trimmed draft, if it is not blank. */
  lemma TypeThenEnter(c: Composer, text: string)
    ensures Run(c, [Type(text), Press(KeyPress("Enter", false))]).1 == if IsBlank(text) then [] else [Trim(text)]
    ensures !IsBlank(text) ==> Run(c, [Type(text), Press(KeyPress("Enter", false))]).0.draft == ""
    ensures IsBlank(text) ==> Run(c, [Type(text), Press(KeyPress("Enter", false))]).0.draft == text
  {
    var enter := Press(KeyPress("Enter", false));
    var typed := c.(draft := text);
    assert [Type(text), enter][1..] == [enter];
    assert Apply(c, Type(text)) == Outcome(typed, None);
    assert [] + Run(typed, [enter]).1 == Run(typed, [enter]).1;
    assert Run(c, [Type(text), enter]) == Run(typed, [enter]);
    assert [enter][1..] == [];
    assert Run(typed, [enter]).0 == Submit(typed).composer;
  }

  /** Shift+Enter never sends, whatever the draft. */
  lemma ShiftEnterNeverSends(c: Composer)
    ensures KeyDown(c, KeyPress("Enter", true)) == Outcome(c, None)
  {
  }

  /** A blank draft is never sent, and submitting it a second time changes nothing either. */
  lemma BlankSubmitIsIdle(c: Composer)
    requires IsBlank(c.draft)
    ensures Run(c, [SubmitForm, SubmitForm]) == (c, [])
  {
    assert [SubmitForm, SubmitForm][1..] == [SubmitForm];
    assert [SubmitForm][1..] == [];
    assert Apply(c, SubmitForm) == Outcome(c, None);
    assert Run(c, []) == (c, []);
    assert [] + Run(c, [SubmitForm][1..]).1 == [];
    assert Run(c, [SubmitForm]) == (c, []);
  }

  /** Submitting right after a successful send is a no-op: the draft is empty. */
  lemma SubmitClearsDraft(c: Composer)
    requires CanSend(c)
    ensures Submit(Submit(c).composer).sent == None
  {
    assert Submit(c).composer.draft == "";
    assert IsBlank("");
  }

  /** Picking a visible emoji always enables the Send button. */
  lemma EmojiEnablesSend(c: Composer, emoji: string)
    requires !IsBlank(emoji)
    ensures CanSend(AddEmoji(c, emoji))
  {
    ConcatNotBlank(c.draft, emoji);
  }
}

=== FILE: status_viewer.dfy ===
/**
 * The story viewer: a cursor over one user's stories that plays each story for a fixed
 * time, can be paused, stepped forward and back, and replied to. When the cursor runs
 * off either end it hands control back to the page through the `onNext`, `onPrev` and
 * `onClose` callbacks. Timers are abstracted to `Tick` events that carry the progress
 * percentage the timer computed.
 */
module StatusViewer {
  import opened Wrappers
  import opened Text

  datatype Story = Story(id: string, image: Option<string>, text: Option<string>, timestamp: string)

  /** Which optional callbacks the page supplied; `onClose` is always present. */
  datatype Handlers = Handlers(hasPrev: bool, hasNext: bool)

  /** The callback a transition invokes, if any. */
  datatype Callback = NoCallback | CallNext | CallPrev | CallClose

  /** The component's local state. */
  datatype Viewer = Viewer(index: nat, progress: real, paused: bool, replyText: string, showReply: bool)

  datatype Step = Step(viewer: Viewer, fired: Callback)

  /** The user input and timer events the viewer reacts to. */
  datatype Event =
    | NextArea            // right third of the screen
    | PrevArea            // left third of the screen
    | Tick(percent: real) // the progress timer fired with this elapsed percentage
    | ContentClick        // the story itself
    | OpenReply           // the "Reply" button
    | TypeReply(text: string)
    | SendReply
    | CloseButton

  /** Full length of a progress bar. */
  const Complete: real := 100.0

  const Initial: Viewer := Viewer(0, 0.0, false, "", false)

  /** The story list may not be empty (the current story is read unconditionally) and
      the cursor points into it. */
  predicate Valid(v: Viewer, count: nat) {
    count >= 1 && v.index < count
  }

  /** Progress is a percentage. */
  predicate InRange(v: Viewer) {
    0.0 <= v.progress <= Complete
  }

  /** The effect that restarts the progress timer whenever the index or the pause flag
      changes: progress goes back to zero. */
  function Settle(before: Viewer, after: Viewer): (r: Viewer)
    ensures r.index == after.index && r.paused == after.paused
    ensures r.replyText == after.replyText && r.showReply == after.showReply
    ensures before.index != after.index || before.paused != after.paused ==> r.progress == 0.0
    ensures before.index == after.index && before.paused == after.paused ==> r == after
  {
    if before.index != after.index || before.paused != after.paused then after.(progress := 0.0) else after
  }

  /** `goToNextStory`. */
  function GoToNext(v: Viewer, count: nat, h: Handlers): (r: Step)
    requires Valid(v, count)
    ensures Valid(r.viewer, count)
    ensures v.index < count - 1 ==> r == Step(v.(index := v.index + 1, progress := 0.0), NoCallback)
    ensures v.index == count - 1 ==> r.viewer == v
    ensures v.index == count - 1 && h.hasNext ==> r.fired == CallNext
    ensures v.index == count - 1 && !h.hasNext ==> r.fired == CallClose
    ensures r.fired != CallPrev
  {
    if v.index < count - 1 then
      Step(Settle(v, v.(index := v.index + 1)), NoCallback)
    else if h.hasNext then
      Step(v, CallNext)
    else
      Step(v, CallClose)
  }

  /** `goToPrevStory`. */
  function GoToPrev(v: Viewer, count: nat, h: Handlers): (r: Step)
    requires Valid(v, count)
    ensures Valid(r.viewer, count)
    ensures v.index > 0 ==> r == Step(v.(index := v.index - 1, progress := 0.0), NoCallback)
    ensures v.index == 0 ==> r.viewer == v
    ensures v.index == 0 && h.hasPrev ==> r.fired == CallPrev
    ensures v.index == 0 && !h.hasPrev ==> r.fired == NoCallback
    ensures r.fired != CallClose && r.fired != CallNext
  {
    if v.index > 0 then
      Step(Settle(v, v.(index := v.index - 1)), NoCallback)
    else if h.hasPrev then
      Step(v, CallPrev)
    else
      Step(v, NoCallback)
  }

  /** One call of the timer's `updateProgress` with the percentage it computed. */
  function OnTick(v: Viewer, count: nat, h: Handlers, percent: real): (r: Step)
    requires Valid(v, count)
    ensures Valid(r.viewer, count)
    ensures v.paused ==> r == Step(v, NoCallback)
    ensures !v.paused && percent < Complete ==> r == Step(v.(progress := percent), NoCallback)
    ensures !v.paused && percent >= Complete ==> r == GoToNext(v.(progress := Complete), count, h)
  {
    if v.paused then Step(v, NoCallback)
    else if percent >= Complete then GoToNext(v.(progress := Complete), count, h)
    else Step(v.(progress := percent), NoCallback)
  }

  /** A click on the story content flips the pause flag. */
  function TogglePause(v: Viewer): (r: Viewer)
    ensures r.paused == !v.paused
    ensures r.progress == 0.0
    ensures r.index == v.index && r.replyText == v.replyText && r.showReply == v.showReply
  {
    Settle(v, v.(paused := !v.paused))
  }

  /** The "Reply" button opens the reply box and pauses playback. */
  function OpenReplyBox(v: Viewer): (r: Viewer)
    ensures r.showReply && r.paused
    ensures r.index == v.index && r.replyText == v.replyText
    ensures v.paused ==> r.progress == v.progress
    ensures !v.paused ==> r.progress == 0.0
  {
    Settle(v, v.(showReply := true, paused := true))
  }

  /** `handleReply`: a reply whose trimmed text is empty is ignored; otherwise the reply
      is handed off and the box is cleared and closed. Playback stays paused. */
  function HandleReply(v: Viewer): (r: Viewer)
    ensures IsBlank(v.replyText) ==> r == v
    ensures !IsBlank(v.replyText) ==> r == v.(replyText := "", showReply := false)
  {
    if Trim(v.replyText) != "" then v.(replyText := "", showReply := false) else v
  }

  /** The viewer's reaction to one event. */
  function Apply(v: Viewer, count: nat, h: Handlers, e: Event): (r: Step)
    requires Valid(v, count)
    ensures Valid(r.viewer, count)
  {
    match e
    case NextArea => GoToNext(v, count, h)
    case PrevArea => GoToPrev(v, count, h)
    case Tick(p) => OnTick(v, count, h, p)
    case ContentClick => Step(TogglePause(v), NoCallback)
    case OpenReply => Step(OpenReplyBox(v), NoCallback)
    case TypeReply(t) => Step(v.(replyText := t), NoCallback)
    case SendReply => Step(HandleReply(v), NoCallback)
    case CloseButton => Step(v, CallClose)
  }

  /** The viewer after a sequence of events, with the callbacks invoked in order. */
  function Run(v: Viewer, count: nat, h: Handlers, events: seq<Event>): (r: (Viewer, seq<Callback>))
    requires Valid(v, count)
    decreases |events|
  {
    if events == [] then (v, [])
    else
      var s := Apply(v, count, h, events[0]);
      var rest := Run(s.viewer, count, h, events[1..]);
      (rest.0, (if s.fired == NoCallback then [] else [s.fired]) + rest.1)
  }

  /** From any valid state, any sequence of events keeps the cursor on a story. */
  lemma {:induction false} RunKeepsValid(v: Viewer, count: nat, h: Handlers, events: seq<Event>)
    requires Valid(v, count)
    ensures Valid(Run(v, count, h, events).0, count)
    decreases |events|
  {
    if events != [] {
      RunKeepsValid(Apply(v, count, h, events[0]).viewer, count, h, events[1..]);
    }
  }

  /** Starting from the initial state over a non-empty story list, the cursor stays in bounds. */
  lemma InitialRunStaysInBounds(count: nat, h: Handlers, events: seq<Event>)
    requires count >= 1
    ensures Run(Initial, count, h, events).0.index < count
  {
    RunKeepsValid(Initial, count, h, events);
  }

  /** Progress stays a percentage as long as the timer reports non-negative elapsed time. */
  lemma {:induction false} RunKeepsProgressInRange(v: Viewer, count: nat, h: Handlers, events: seq<Event>)
    requires Valid(v, count) && InRange(v)
    requires forall i :: 0 <= i < |events| && events[i].Tick? ==> events[i].percent >= 0.0
    ensures InRange(Run(v, count, h, events).0)
    decreases |events|
  {
    if events != [] {
      ApplyKeepsProgressInRange(v, count, h, events[0]);
      RunKeepsProgressInRange(Apply(v, count, h, events[0]).viewer, count, h, events[1..]);
    }
  }

  /** One event keeps progress a percentage when a tick's elapsed time is non-negative. */
  lemma ApplyKeepsProgressInRange(v: Viewer, count: nat, h: Handlers, e: Event)
    requires Valid(v, count) && InRange(v)
    requires e.Tick? ==> e.percent >= 0.0
    ensures InRange(Apply(v, count, h, e).viewer)
  {
  }

  /** The same event `k` times. */
  function Repeat(e: Event, k: nat): (r: seq<Event>)
    ensures |r| == k
    ensures forall i :: 0 <= i < k ==> r[i] == e
  {
    if k == 0 then [] else [e] + Repeat(e, k - 1)
  }

  /** Every callback in the log is `onPrev`. */
  predicate OnlyPrev(log: seq<Callback>) {
    forall i :: 0 <= i < |log| ==> log[i] == CallPrev
  }

  /** Going back, however often, never asks the page to close the viewer or to move on;
      from story `i` and `k <= i` steps it lands on story `i - k` without any callback. */
  lemma {:induction false} PrevNeverLeaves(v: Viewer, count: nat, h: Handlers, k: nat)
    requires Valid(v, count)
    ensures OnlyPrev(Run(v, count, h, Repeat(PrevArea, k)).1)
    ensures v.index >= k ==> Run(v, count, h, Repeat(PrevArea, k)).1 == []
    ensures v.index >= k ==> Run(v, count, h, Repeat(PrevArea, k)).0.index == v.index - k
    decreases k
  {
    if k > 0 {
      var s := GoToPrev(v, count, h);
      assert Repeat(PrevArea, k)[1..] == Repeat(PrevArea, k - 1);
      PrevNeverLeaves(s.viewer, count, h, k - 1);
      var head: seq<Callback> := if s.fired == NoCallback then [] else [s.fired];
      assert Repeat(PrevArea, k)[0] == PrevArea;
      OnlyPrevConcat(head, Run(s.viewer, count, h, Repeat(PrevArea, k - 1)).1);
    }
  }

  /** Concatenating two callback lists that only ever call `onPrev` keeps that property. */
  lemma OnlyPrevConcat(a: seq<Callback>, b: seq<Callback>)
    requires OnlyPrev(a) && OnlyPrev(b)
    ensures OnlyPrev(a + b)
  {
    forall i | 0 <= i < |a + b| ensures (a + b)[i] == CallPrev {
      if i >= |a| { assert (a + b)[i] == b[i - |a|]; }
    }
  }

  /** Stepping forward `k` times from story `i` reaches story `i + k` without any callback,
      as long as that story exists. */
  lemma {:induction false} NextAdvances(v: Viewer, count: nat, h: Handlers, k: nat)
    requires Valid(v, count) && v.index + k < count
    ensures Run(v, count, h, Repeat(NextArea, k)).0.index == v.index + k
    ensures Run(v, count, h, Repeat(NextArea, k)).1 == []
    decreases k
  {
    if k > 0 {
      assert Repeat(NextArea, k)[1..] == Repeat(NextArea, k - 1);
      NextAdvances(GoToNext(v, count, h).viewer, count, h, k - 1);
    }
  }

  /** From the first story, `count - 1` steps forward reach the last story; one more step hands
      control to exactly one of `onNext` and `onClose`. */
  lemma WalkToEnd(count: nat, h: Handlers)
    requires count >= 1
    ensures Run(Initial, count, h, Repeat(NextArea, count - 1)).0.index == count - 1
    ensures Run(Initial, count, h, Repeat(NextArea, count)).1 == [if h.hasNext then CallNext else CallClose]
  {
    NextAdvances(Initial, count, h, count - 1);
    var before := Repeat(NextArea, count - 1);
    RunSplit(Initial, count, h, before, [NextArea]);
    assert Repeat(NextArea, count) == before + [NextArea];
  }

  /** One step of `Run`: the first event's callback, if any, precedes the rest's. */
  lemma RunStep(v: Viewer, count: nat, h: Handlers, events: seq<Event>)
    requires Valid(v, count) && events != []
    ensures var s := Apply(v, count, h, events[0]);
            var rest := Run(s.viewer, count, h, events[1..]);
            Run(v, count, h, events) == (rest.0, (if s.fired == NoCallback then [] else [s.fired]) + rest.1)
  {
  }

  /** Running two event sequences one after the other is running their concatenation. */
  lemma {:induction false} RunSplit(v: Viewer, count: nat, h: Handlers, a: seq<Event>, b: seq<Event>)
    requires Valid(v, count)
    ensures Valid(Run(v, count, h, a).0, count)
    ensures Run(v, count, h, a + b).0 == Run(Run(v, count, h, a).0, count, h, b).0
    ensures Run(v, count, h, a + b).1 == Run(v, count, h, a).1 + Run(Run(v, count, h, a).0, count, h, b).1
    decreases |a|
  {
    RunKeepsValid(v, count, h, a);
    if a == [] {
      assert a + b == b;
      assert [] + Run(v, count, h, b).1 == Run(v, count, h, b).1;
    } else {
      var s := Apply(v, count, h, a[0]);
      assert (a + b)[0] == a[0];
      assert (a + b)[1..] == a[1..] + b;
      RunSplit(s.viewer, count, h, a[1..], b);
      RunStep(v, count, h, a);
      RunStep(v, count, h, a + b);
    }
  }

  /** Next then Prev returns to the same story with its progress restarted, unless Next was
      at the end; nothing else changes and no callback fires. */
  lemma NextThenPrev(v: Viewer, count: nat, h: Handlers)
    requires Valid(v, count) && v.index < count - 1
    ensures GoToPrev(GoToNext(v, count, h).viewer, count, h) == Step(v.(progress := 0.0), NoCallback)
  {
  }

  /** Prev then Next returns to the same story with its progress restarted, unless Prev was
      at the start; nothing else changes and no callback fires. */
  lemma PrevThenNext(v: Viewer, count: nat, h: Handlers)
    requires Valid(v, count) && v.index > 0
    ensures GoToNext(GoToPrev(v, count, h).viewer, count, h) == Step(v.(progress := 0.0), NoCallback)
  {
  }

  /** What a progress bar shows for one story. */
  datatype Segment = Filled | Unfilled | Partial(width: real)

  /** The bar of story `i`: the current story shows its progress, earlier ones are full,
      later ones are empty. */
  function SegmentAt(v: Viewer, i: nat): Segment {
    if i == v.index then Partial(v.progress)
    else if i < v.index then Filled
    else Unfilled
  }

  /** All progress bars, one per story. */
  function Segments(v: Viewer, count: nat): (r: seq<Segment>)
    ensures |r| == count
    ensures forall i :: 0 <= i < count ==> (r[i] == Filled <==> i < v.index)
    ensures forall i :: 0 <= i < count ==> (r[i] == Unfilled <==> i > v.index)
    ensures v.index < count ==> r[v.index] == Partial(v.progress)
  {
    seq(count, i requires 0 <= i => SegmentAt(v, i))
  }

  /** The three kinds of bar, without the partial bar's width. */
  datatype Kind = FullBar | EmptyBar | PartialBar

  function KindOf(s: Segment): Kind {
    match s
    case Filled => FullBar
    case Unfilled => EmptyBar
    case Partial(_) => PartialBar
  }

  /** Counts the bars of one kind. */
  function CountOf(segs: seq<Segment>, k: Kind): (n: nat)
    ensures n <= |segs|
  {
    if segs == [] then 0
    else (if KindOf(segs[0]) == k then 1 else 0) + CountOf(segs[1..], k)
  }

  lemma {:induction false} CountOfSplit(a: seq<Segment>, b: seq<Segment>, k: Kind)
    ensures CountOf(a + b, k) == CountOf(a, k) + CountOf(b, k)
    decreases |a|
  {
    if a == [] {
      assert a + b == b;
    } else {
      assert (a + b)[1..] == a[1..] + b;
      CountOfSplit(a[1..], b, k);
    }
  }

  /** A run of bars all of kind `only` holds `|segs|` bars of that kind and none of any other. */
  lemma {:induction false} CountOfUniform(segs: seq<Segment>, only: Kind, k: Kind)
    requires forall i :: 0 <= i < |segs| ==> KindOf(segs[i]) == only
    ensures CountOf(segs, k) == if k == only then |segs| else 0
    decreases |segs|
  {
    if segs != [] {
      CountOfUniform(segs[1..], only, k);
    }
  }

  /** Over a valid viewer, exactly `index` bars are full, exactly one shows partial progress
      (the current story's), and the remaining `count - index - 1` are empty. */
  lemma SegmentCounts(v: Viewer, count: nat)
    requires Valid(v, count)
    ensures CountOf(Segments(v, count), FullBar) == v.index
    ensures CountOf(Segments(v, count), PartialBar) == 1
    ensures CountOf(Segments(v, count), EmptyBar) == count - v.index - 1
  {
    var segs := Segments(v, count);
    var before, here, after := segs[..v.index], segs[v.index..v.index + 1], segs[v.index + 1..];
    assert segs == (before + here) + after;
    assert here == [Partial(v.progress)];
    forall k: Kind
      ensures CountOf(segs, k) == CountOf(before, k) + CountOf(here, k) + CountOf(after, k)
    {
      CountOfSplit(before + here, after, k);
      CountOfSplit(before, here, k);
    }
    assert forall i :: 0 <= i < |before| ==> KindOf(before[i]) == FullBar;
    assert forall i :: 0 <= i < |after| ==> KindOf(after[i]) == EmptyBar;
    assert forall i :: 0 <= i < |here| ==> KindOf(here[i]) == PartialBar;
    forall k: Kind
      ensures CountOf(before, k) == (if k == FullBar then v.index else 0)
      ensures CountOf(here, k) == (if k == PartialBar then 1 else 0)
      ensures CountOf(after, k) == (if k == EmptyBar then count - v.index - 1 else 0)
    {
      CountOfUniform(before, FullBar, k);
      CountOfUniform(here, PartialBar, k);
      CountOfUniform(after, EmptyBar, k);
    }
  }

  /** What the viewer shows for a story: its image if it has a non-empty one, else its text
      if non-empty, else nothing. */
  datatype Content = ImageContent(url: string) | TextContent(body: string) | NoContent

  function ContentOf(s: Story): (r: Content)
    ensures s.image.Some? && s.image.value != "" ==> r == ImageContent(s.image.value)
    ensures r.TextContent? ==> s.text == Some(r.body) && r.body != "" && s.image.GetOr("") == ""
    ensures r.NoContent? <==> s.image.GetOr("") == "" && s.text.GetOr("") == ""
    ensures s.image.GetOr("") == "" && s.text.GetOr("") != "" ==> r == TextContent(s.text.value)
    ensures r.ImageContent? ==> s.image == Some(r.url) && r.url != ""
  {
    if s.image.GetOr("") != "" then ImageContent(s.image.value)
    else if s.text.GetOr("") != "" then TextContent(s.text.value)
    else NoContent
  }

  /** The story on screen: the one whose progress bar is the partially filled one. */
  function CurrentStory(stories: seq<Story>, v: Viewer): (r: Story)
    requires Valid(v, |stories|)
    ensures exists i :: 0 <= i < |stories| && Segments(v, |stories|)[i].Partial? && stories[i] == r
  {
    stories[v.index]
  }
}

=== FILE: text.dfy ===
/**
 * The two pieces of JavaScript string behaviour the components rely on:
 * `String.prototype.trim` and `toUpperCase` of a single character.
 */
module Text {

  /** ECMAScript's WhiteSpace and LineTerminator code points, the set `trim` strips:
      TAB, LF, VT, FF, CR, SPACE, NBSP, ZWNBSP, LS, PS and the other space separators. */
  predicate IsWhitespace(c: char) {
    || c == '\t' || c == '\n' || c == '\U{0B}' || c == '\U{0C}' || c == '\r'
    || c == ' ' || c == '\U{A0}' || c == '\U{1680}'
    || ('\U{2000}' <= c <= '\U{200A}')
    || c == '\U{2028}' || c == '\U{2029}' || c == '\U{202F}' || c == '\U{205F}'
    || c == '\U{3000}' || c == '\U{FEFF}'
  }

  /** Every character of `s` is whitespace (the empty string included). */
  predicate IsBlank(s: string) {
    forall i :: 0 <= i < |s| ==> IsWhitespace(s[i])
  }

  /** Neither end of `s` is whitespace: what `trim` returns. */
  predicate IsTrimmed(s: string) {
    s == [] || (!IsWhitespace(s[0]) && !IsWhitespace(s[|s| - 1]))
  }

  /** `s` without its leading whitespace. */
  function TrimStart(s: string): (r: string)
    ensures |r| <= |s|
    ensures r == s[|s| - |r|..]
    ensures forall i :: 0 <= i < |s| - |r| ==> IsWhitespace(s[i])
    ensures r == [] || !IsWhitespace(r[0])
  {
    if |s| > 0 && IsWhitespace(s[0]) then
      var r := TrimStart(s[1..]);
      assert forall i :: 1 <= i < |s| - |r| ==> s[i] == s[1..][i - 1];
      r
    else
      s
  }

  /** `s` without its trailing whitespace. */
  function TrimEnd(s: string): (r: string)
    ensures |r| <= |s|
    ensures r == s[..|r|]
    ensures forall i :: |r| <= i < |s| ==> IsWhitespace(s[i])
    ensures r == [] || !IsWhitespace(r[|r| - 1])
  {
    if |s| > 0 && IsWhitespace(s[|s| - 1]) then TrimEnd(s[..|s| - 1]) else s
  }

  /** How many leading characters `trim` removes. */
  function LeadingBlank(s: string): (n: nat)
    ensures n <= |s|
    ensures forall i :: 0 <= i < n ==> IsWhitespace(s[i])
  {
    |s| - |TrimStart(s)|
  }

  /** JavaScript's `s.trim()`: no whitespace at either end, and nothing left exactly when
      the input is all whitespace. */
  function Trim(s: string): (r: string)
    ensures IsTrimmed(r)
    ensures r == [] <==> IsBlank(s)
  {
    var t := TrimStart(s);
    var r := TrimEnd(t);
    TrimParts(s, LeadingBlank(s), t, r);
    r
  }

  /** `trim` returns the middle slice of its input: what it drops on either side is whitespace. */
  lemma TrimIsMiddleSlice(s: string)
    ensures LeadingBlank(s) + |Trim(s)| <= |s|
    ensures Trim(s) == s[LeadingBlank(s)..LeadingBlank(s) + |Trim(s)|]
    ensures forall i :: 0 <= i < LeadingBlank(s) ==> IsWhitespace(s[i])
    ensures forall i :: LeadingBlank(s) + |Trim(s)| <= i < |s| ==> IsWhitespace(s[i])
  {
    var t := TrimStart(s);
    TrimParts(s, LeadingBlank(s), t, TrimEnd(t));
  }

  /** The facts that make `Trim` correct, from those of its two halves. */
  lemma TrimParts(s: string, lead: nat, t: string, r: string)
    requires lead <= |s| && t == s[lead..]
    requires forall i :: 0 <= i < lead ==> IsWhitespace(s[i])
    requires t == [] || !IsWhitespace(t[0])
    requires |r| <= |t| && r == t[..|r|]
    requires forall i :: |r| <= i < |t| ==> IsWhitespace(t[i])
    requires r == [] || !IsWhitespace(r[|r| - 1])
    ensures IsTrimmed(r)
    ensures lead + |r| <= |s|
    ensures r == s[lead..lead + |r|]
    ensures forall i :: lead + |r| <= i < |s| ==> IsWhitespace(s[i])
    ensures r == [] <==> IsBlank(s)
  {
    forall i | lead + |r| <= i < |s| ensures IsWhitespace(s[i]) {
      assert s[i] == t[i - lead];
    }
    if r != [] {
      assert r[0] == t[0];
      assert !IsWhitespace(s[lead]);
    } else {
      assert |t| == 0;
    }
  }

  /** Two blank strings make a blank string. */
  lemma BlankConcat(a: string, b: string)
    requires IsBlank(a) && IsBlank(b)
    ensures IsBlank(a + b)
  {
    forall i | 0 <= i < |a + b| ensures IsWhitespace((a + b)[i]) {
      if i < |a| { assert (a + b)[i] == a[i]; } else { assert (a + b)[i] == b[i - |a|]; }
    }
  }

  /** A blank prefix is exactly what TrimStart removes once the rest starts with a non-blank. */
  lemma {:induction false} TrimStartOfBlankPrefix(a: string, t: string)
    requires IsBlank(a)
    requires t == [] || !IsWhitespace(t[0])
    ensures TrimStart(a + t) == t
    decreases |a|
  {
    if a == [] {
      assert a + t == t;
    } else {
      assert (a + t)[1..] == a[1..] + t;
      TrimStartOfBlankPrefix(a[1..], t);
    }
  }

  /** A blank suffix is exactly what TrimEnd removes once the rest ends with a non-blank. */
  lemma {:induction false} TrimEndOfBlankSuffix(t: string, b: string)
    requires IsBlank(b)
    requires t == [] || !IsWhitespace(t[|t| - 1])
    ensures TrimEnd(t + b) == t
    decreases |b|
  {
    if b == [] {
      assert t + b == t;
    } else {
      assert (t + b)[..|t + b| - 1] == t + b[..|b| - 1];
      TrimEndOfBlankSuffix(t, b[..|b| - 1]);
    }
  }

  /** `trim` is characterised by its result: whatever trimmed string `r` sits between
      two runs of whitespace, `trim` gives back exactly `r`. */
  lemma TrimUnique(a: string, r: string, b: string)
    requires IsBlank(a) && IsBlank(b) && IsTrimmed(r)
    ensures Trim(a + r + b) == r
  {
    if r == [] {
      assert a + r + b == a + b;
      BlankConcat(a, b);
    } else {
      assert a + r + b == a + (r + b);
      TrimStartOfBlankPrefix(a, r + b);
      TrimEndOfBlankSuffix(r, b);
    }
  }

  /** Trimming twice is trimming once. */
  lemma TrimIdempotent(s: string)
    ensures Trim(Trim(s)) == Trim(s)
  {
    TrimOfTrimmed(Trim(s));
  }

  /** A string with no whitespace at either end is its own trim. */
  lemma TrimOfTrimmed(r: string)
    requires IsTrimmed(r)
    ensures Trim(r) == r
  {
    assert [] + r + [] == r;
    TrimUnique([], r, []);
  }

  /** The string is not blank as soon as one of its parts is not blank. */
  lemma ConcatNotBlank(a: string, b: string)
    requires !IsBlank(b)
    ensures !IsBlank(a + b)
  {
    var i :| 0 <= i < |b| && !IsWhitespace(b[i]);
    assert (a + b)[|a| + i] == b[i];
  }

  predicate IsLowerAscii(c: char) { 'a' <= c <= 'z' }

  /** `toUpperCase` of one character, for the ASCII letters; every other character is kept. */
  function ToUpperAscii(c: char): (r: char)
    ensures !IsLowerAscii(r)
    ensures !IsLowerAscii(c) ==> r == c
    ensures IsLowerAscii(c) ==> 'A' <= r <= 'Z' && r as int - 'A' as int == c as int - 'a' as int
  {
    if IsLowerAscii(c) then (c as int - 'a' as int + 'A' as int) as char else c
  }
}

=== FILE: user_menu.dfy ===
/**
 * The user menu: an avatar button that opens a dropdown with the signed-in user's name
 * and e-mail, links, a sign-out button, and a "Menu Options" panel holding three settings
 * (visible, draggable, theme). It is shown either embedded in the sidebar or floating and
 * draggable over the page; its settings and floating position are kept in browser
 * storage, modelled here as a `Store` value.
 */
module UserMenu {
  import opened Wrappers
  import opened Text

  datatype Theme = DefaultTheme | Minimal | Expanded

  datatype Settings = Settings(isDraggable: bool, isVisible: bool, theme: Theme)

  /** The settings a fresh menu starts with. */
  const DefaultSettings: Settings := Settings(true, true, DefaultTheme)

  /** The fields of `Settings` that `toggleSetting` addresses by name. */
  datatype SettingKey = DraggableKey | VisibleKey | ThemeKey

  /** The value of one settings field. */
  datatype SettingValue = BoolValue(flag: bool) | ThemeValue(theme: Theme)

  function Get(s: Settings, k: SettingKey): SettingValue {
    match k
    case DraggableKey => BoolValue(s.isDraggable)
    case VisibleKey => BoolValue(s.isVisible)
    case ThemeKey => ThemeValue(s.theme)
  }

  /** `toggleSetting` is well typed for these arguments: an explicit value has the field's
      type, and only the boolean fields are negated. */
  predicate CanToggle(k: SettingKey, value: Option<SettingValue>) {
    match value
    case None => k != ThemeKey
    case Some(v) => if k == ThemeKey then v.ThemeValue? else v.BoolValue?
  }

  /** `toggleSetting(k, value?)`: sets field `k` to `value` when one is given, negates it
      otherwise, and leaves the other fields alone. */
  function ToggleSetting(s: Settings, k: SettingKey, value: Option<SettingValue>): (r: Settings)
    requires CanToggle(k, value)
    ensures value.Some? ==> Get(r, k) == value.value
    ensures value.None? ==> Get(r, k) == BoolValue(!Get(s, k).flag)
    ensures forall other :: other != k ==> Get(r, other) == Get(s, other)
  {
    match k
    case DraggableKey => s.(isDraggable := if value.Some? then value.value.flag else !s.isDraggable)
    case VisibleKey => s.(isVisible := if value.Some? then value.value.flag else !s.isVisible)
    case ThemeKey => s.(theme := value.value.theme)
  }

  /** Two settings records that agree on every field are the same record. */
  lemma SettingsExtensional(s: Settings, t: Settings)
    requires forall k :: Get(s, k) == Get(t, k)
    ensures s == t
  {
    assert Get(s, DraggableKey) == Get(t, DraggableKey);
    assert Get(s, VisibleKey) == Get(t, VisibleKey);
    assert Get(s, ThemeKey) == Get(t, ThemeKey);
  }

  /** Negating a boolean setting twice restores the settings. */
  lemma ToggleTwiceRestores(s: Settings, k: SettingKey)
    requires k != ThemeKey
    ensures ToggleSetting(ToggleSetting(s, k, None), k, None) == s
  {
    var r := ToggleSetting(ToggleSetting(s, k, None), k, None);
    assert Get(s, k).BoolValue?;
    SettingsExtensional(r, s);
  }

  /** Setting a field to a value is idempotent, and setting it to its current value changes nothing. */
  lemma SetIsIdempotent(s: Settings, k: SettingKey, v: SettingValue)
    requires CanToggle(k, Some(v))
    ensures ToggleSetting(ToggleSetting(s, k, Some(v)), k, Some(v)) == ToggleSetting(s, k, Some(v))
    ensures Get(s, k) == v ==> ToggleSetting(s, k, Some(v)) == s
  {
    var once := ToggleSetting(s, k, Some(v));
    SettingsExtensional(ToggleSetting(once, k, Some(v)), once);
    if Get(s, k) == v {
      SettingsExtensional(once, s);
    }
  }

  /** The profile the menu shows. */
  datatype UserInfo = UserInfo(displayName: string, email: string, photoURL: string, uid: string)

  /** The profile before the auth service reports a user. */
  const NoUserInfo: UserInfo := UserInfo("", "", "", "")

  /** A user as reported by the auth service; the optional fields may be missing. */
  datatype AuthUser = AuthUser(displayName: Option<string>, email: Option<string>, photoURL: Option<string>, uid: string)

  /** JavaScript's `x || fallback` on an optional string: a missing or empty string falls back. */
  function OrElse(x: Option<string>, fallback: string): (r: string)
    ensures x.Some? && x.value != "" ==> r == x.value
    ensures x.None? || x.value == "" ==> r == fallback
  {
    if x.Some? && x.value != "" then x.value else fallback
  }

  /** The profile built from a signed-in user. */
  function InfoFromAuth(u: AuthUser): (r: UserInfo)
    ensures r.uid == u.uid
    ensures r.displayName == OrElse(u.displayName, "User")
    ensures r.email == OrElse(u.email, "No email")
    ensures r.photoURL == OrElse(u.photoURL, "")
    ensures r.displayName != "" && r.email != ""
  {
    UserInfo(OrElse(u.displayName, "User"), OrElse(u.email, "No email"), OrElse(u.photoURL, ""), u.uid)
  }

  /** `getInitial`: the upper-cased first letter of the display name, else of the e-mail,
      else a question mark. */
  function GetInitial(info: UserInfo): (r: string)
    ensures |r| == 1
    ensures info.displayName != "" ==> r == [ToUpperAscii(info.displayName[0])]
    ensures info.displayName == "" && info.email != "" ==> r == [ToUpperAscii(info.email[0])]
    ensures info.displayName == "" && info.email == "" ==> r == "?"
    ensures !IsLowerAscii(r[0])
  {
    if |info.displayName| > 0 then [ToUpperAscii(info.displayName[0])]
    else if |info.email| > 0 then [ToUpperAscii(info.email[0])]
    else "?"
  }

  /** Before sign-in the avatar shows '?'; once a user is known it shows the initial of the
      reported name or, when the name is missing, 'U' for "User" (never the e-mail's). */
  lemma SignedInInitial(u: AuthUser)
    ensures GetInitial(NoUserInfo) == "?"
    ensures u.displayName.Some? && u.displayName.value != ""
        ==> GetInitial(InfoFromAuth(u)) == [ToUpperAscii(u.displayName.value[0])]
    ensures u.displayName.None? || u.displayName.value == "" ==> GetInitial(InfoFromAuth(u)) == "U"
  {
    var name := InfoFromAuth(u).displayName;
    if u.displayName.None? || u.displayName.value == "" {
      assert name == "User";
    }
  }

  /** What the avatar circle shows. */
  datatype Avatar = Photo(url: string) | Initial(letter: string)

  function AvatarOf(info: UserInfo): (r: Avatar)
    ensures info.photoURL != "" <==> r.Photo?
    ensures r.Photo? ==> r.url == info.photoURL
    ensures r.Initial? ==> r.letter == GetInitial(info)
  {
    if info.photoURL != "" then Photo(info.photoURL) else Initial(GetInitial(info))
  }

  /** A screen position in pixels. */
  datatype Point = Point(x: real, y: real)

  const Origin: Point := Point(0.0, 0.0)

  /** Distance of the default floating position from the right and bottom edges. */
  const CornerInset: real := 80.0

  /** The component's local state, with its two props. */
  datatype Menu = Menu(
    embedded: bool,
    hasOnClose: bool,
    isOpen: bool,
    isSettingsOpen: bool,
    isDragging: bool,
    position: Point,
    settings: Settings,
    user: UserInfo)

  /** The state right after mounting, before storage and the auth service are consulted. */
  function Mount(embedded: bool, hasOnClose: bool): (r: Menu)
    ensures r.embedded == embedded && r.hasOnClose == hasOnClose
    ensures !r.isOpen && !r.isSettingsOpen && !r.isDragging
    ensures r.position == Origin && r.settings == DefaultSettings && r.user == NoUserInfo
  {
    Menu(embedded, hasOnClose, false, false, false, Origin, DefaultSettings, NoUserInfo)
  }

  /** The two storage entries the menu reads and writes. */
  datatype Store = Store(settings: Option<Settings>, position: Option<Point>)

  /** The mount-time load: saved settings replace the defaults; a saved position is used,
      otherwise a floating menu goes to the bottom-right corner of the viewport. */
  function LoadSaved(m: Menu, store: Store, viewport: Point): (r: Menu)
    ensures store.settings.Some? ==> r.settings == store.settings.value
    ensures store.settings.None? ==> r.settings == m.settings
    ensures store.position.Some? ==> r.position == store.position.value
    ensures store.position.None? && !m.embedded
        ==> r.position == Point(viewport.x - CornerInset, viewport.y - CornerInset)
    ensures store.position.None? && m.embedded ==> r.position == m.position
    ensures r.(settings := m.settings, position := m.position) == m
  {
    var position :=
      if store.position.Some? then store.position.value
      else if !m.embedded then Point(viewport.x - CornerInset, viewport.y - CornerInset)
      else m.position;
    m.(settings := store.settings.GetOr(m.settings), position := position)
  }

  /** A position is written to storage only when it is not the origin and the menu floats. */
  predicate ShouldPersistPosition(p: Point, embedded: bool) {
    (p.x != 0.0 || p.y != 0.0) && !embedded
  }

  /** The save effect: the settings are always written; the position only under the rule above. */
  function Persist(m: Menu, store: Store): (r: Store)
    ensures r.settings == Some(m.settings)
    ensures ShouldPersistPosition(m.position, m.embedded) ==> r.position == Some(m.position)
    ensures !ShouldPersistPosition(m.position, m.embedded) ==> r.position == store.position
    ensures m.embedded ==> r.position == store.position
  {
    Store(Some(m.settings), if ShouldPersistPosition(m.position, m.embedded) then Some(m.position) else store.position)
  }

  /** What is saved is what the next mount loads: the settings always, the position
      whenever it was persisted. */
  lemma PersistThenLoad(m: Menu, store: Store, viewport: Point)
    ensures LoadSaved(Mount(m.embedded, m.hasOnClose), Persist(m, store), viewport).settings == m.settings
    ensures ShouldPersistPosition(m.position, m.embedded)
        ==> LoadSaved(Mount(m.embedded, m.hasOnClose), Persist(m, store), viewport).position == m.position
  {
  }

  /** The origin is never written, so a stored position is never the origin unless it was
      there before. */
  lemma PersistNeverWritesOrigin(m: Menu, store: Store)
    requires store.position != Some(Origin)
    ensures Persist(m, store).position != Some(Origin)
  {
  }

  /** The menu's user-interface events. */
  datatype Event =
    | AuthChanged(user: Option<AuthUser>)
    | MouseDown(insideMenu: bool)   // a mouse press anywhere in the document
    | AvatarClick
    | DragStart
    | DragEnd(dropPoint: Point)
    | LinkClick                     // the "Profile" or "Settings" link
    | MenuOptionsClick
    | BackClick
    | ToggleVisible
    | ToggleDraggable
    | PickTheme(theme: Theme)
    | SignOutClick

  /** What a transition asks of the outside world. */
  datatype Effect = NoEffect | CallOnClose | SignOutAndLeave

  datatype Step = Step(menu: Menu, effect: Effect)

  /** The dropdown's two panels; the options panel has a "Draggable" row only when floating. */
  datatype Panel = MainPanel | OptionsPanel(draggableRow: bool)

  /** What is rendered: nothing, the sidebar entry, or the floating button, each with its
      dropdown if open. */
  datatype View = Hidden | Sidebar(dropdown: Option<Panel>) | Floating(dropdown: Option<Panel>, dragHandle: bool)

  function PanelOf(m: Menu): (r: Panel)
    ensures r.OptionsPanel? <==> m.isSettingsOpen
    ensures r.OptionsPanel? ==> r.draggableRow == !m.embedded
  {
    if m.isSettingsOpen then OptionsPanel(!m.embedded) else MainPanel
  }

  /** The render function. */
  function Render(m: Menu): (r: View)
    ensures r == Hidden <==> !m.settings.isVisible
    ensures m.settings.isVisible && m.embedded ==> r.Sidebar? && (r.dropdown.Some? <==> m.isOpen)
    ensures m.settings.isVisible && !m.embedded
        ==> r.Floating? && (r.dropdown.Some? <==> m.isOpen && !m.isDragging) && r.dragHandle == m.settings.isDraggable
    ensures r != Hidden && r.dropdown.Some? ==> r.dropdown.value == PanelOf(m)
  {
    if !m.settings.isVisible then Hidden
    else if m.embedded then Sidebar(if m.isOpen then Some(PanelOf(m)) else None)
    else Floating(if m.isOpen && !m.isDragging then Some(PanelOf(m)) else None, m.settings.isDraggable)
  }

  /** The dropdown currently on screen, if any. */
  function Dropdown(m: Menu): Option<Panel> {
    var v := Render(m);
    if v == Hidden then None else v.dropdown
  }

  /** The sidebar entry's two lines: the user's name, or "My Profile" while none is known;
      then the e-mail with the expanded theme, a fixed hint otherwise. */
  function SidebarLabel(m: Menu): (r: (string, string))
    ensures r.0 != ""
    ensures m.user.displayName != "" ==> r.0 == m.user.displayName
    ensures m.user.displayName == "" ==> r.0 == "My Profile"
    ensures m.settings.theme == Expanded ==> r.1 == m.user.email
    ensures m.settings.theme != Expanded ==> r.1 == "Manage your account"
  {
    (if m.user.displayName != "" then m.user.displayName else "My Profile",
     if m.settings.theme == Expanded then m.user.email else "Manage your account")
  }

  /** The document-level mouse-down listener: a press outside the rendered menu closes the
      dropdown and the options panel. While the menu renders nothing there is no element to
      be outside of, and nothing happens. */
  function ClickOutside(m: Menu, insideMenu: bool): (r: Menu)
    ensures m.settings.isVisible && !insideMenu ==> r == m.(isOpen := false, isSettingsOpen := false)
    ensures !m.settings.isVisible || insideMenu ==> r == m
  {
    if m.settings.isVisible && !insideMenu then m.(isOpen := false, isSettingsOpen := false) else m
  }

  /** The avatar button: in the sidebar it always toggles the dropdown; floating, it is
      ignored while a drag is in progress. */
  function ClickAvatar(m: Menu): (r: Menu)
    ensures m.embedded || !m.isDragging ==> r == m.(isOpen := !m.isOpen)
    ensures !m.embedded && m.isDragging ==> r == m
  {
    if m.embedded || !m.isDragging then m.(isOpen := !m.isOpen) else m
  }

  /** Only a visible, floating, draggable menu takes part in drag gestures. */
  predicate CanDrag(m: Menu) {
    m.settings.isVisible && !m.embedded && m.settings.isDraggable
  }

  /** `handleDragEnd`: the drop point becomes the position and the drag is over. */
  function HandleDragEnd(m: Menu, dropPoint: Point): (r: Menu)
    ensures !r.isDragging && r.position == dropPoint
    ensures r.(isDragging := m.isDragging, position := m.position) == m
  {
    m.(isDragging := false, position := dropPoint)
  }

  /** The menu's reaction to one event. */
  function Apply(m: Menu, e: Event): (r: Step)
    ensures r.effect == CallOnClose ==> e == LinkClick && m.hasOnClose
    ensures r.effect == SignOutAndLeave <==> e == SignOutClick
    ensures r.menu.embedded == m.embedded && r.menu.hasOnClose == m.hasOnClose
  {
    match e
    case AuthChanged(u) => Step(if u.Some? then m.(user := InfoFromAuth(u.value)) else m, NoEffect)
    case MouseDown(inside) => Step(ClickOutside(m, inside), NoEffect)
    case AvatarClick => Step(ClickAvatar(m), NoEffect)
    case DragStart => Step(if CanDrag(m) then m.(isDragging := true) else m, NoEffect)
    case DragEnd(p) => Step(if CanDrag(m) then HandleDragEnd(m, p) else m, NoEffect)
    case LinkClick => Step(m.(isOpen := false), if m.hasOnClose then CallOnClose else NoEffect)
    case MenuOptionsClick => Step(m.(isSettingsOpen := true), NoEffect)
    case BackClick => Step(m.(isSettingsOpen := false), NoEffect)
    case ToggleVisible => Step(m.(settings := ToggleSetting(m.settings, VisibleKey, None)), NoEffect)
    case ToggleDraggable => Step(m.(settings := ToggleSetting(m.settings, DraggableKey, None)), NoEffect)
    case PickTheme(t) => Step(m.(settings := ToggleSetting(m.settings, ThemeKey, Some(ThemeValue(t)))), NoEffect)
    case SignOutClick => Step(m, SignOutAndLeave)
  }

  /** Whether the element that raises `e` is on screen: the auth and document listeners
      always are; the avatar whenever the menu renders; the drag gestures on a floating menu;
      the links, "Menu Options" and "Sign out" on the main panel; "Back", the visibility
      toggle and the theme buttons on the options panel, and the draggable toggle only on
      a floating menu's options panel. */
  function Available(m: Menu, e: Event): (r: bool)
    ensures !m.settings.isVisible ==> (r <==> e.AuthChanged? || e.MouseDown?)
    ensures m.embedded && r ==> !e.DragStart? && !e.DragEnd? && !e.ToggleDraggable?
    ensures r && (e.DragStart? || e.DragEnd?) ==> m.settings.isDraggable
    ensures e.AvatarClick? ==> (r <==> m.settings.isVisible)
    ensures r && (e.LinkClick? || e.MenuOptionsClick? || e.SignOutClick?) ==> m.isOpen && !m.isSettingsOpen
    ensures r && (e.BackClick? || e.ToggleVisible? || e.PickTheme? || e.ToggleDraggable?) ==> m.isOpen && m.isSettingsOpen
    ensures r && (e.LinkClick? || e.SignOutClick? || e.ToggleVisible?) ==> m.isOpen
  {
    match e
    case AuthChanged(_) => true
    case MouseDown(_) => true
    case AvatarClick => Render(m) != Hidden
    case DragStart => CanDrag(m)
    case DragEnd(_) => CanDrag(m)
    case LinkClick => Dropdown(m) == Some(MainPanel)
    case MenuOptionsClick => Dropdown(m) == Some(MainPanel)
    case SignOutClick => Dropdown(m) == Some(MainPanel)
    case BackClick => Dropdown(m).Some? && Dropdown(m).value.OptionsPanel?
    case ToggleVisible => Dropdown(m).Some? && Dropdown(m).value.OptionsPanel?
    case PickTheme(_) => Dropdown(m).Some? && Dropdown(m).value.OptionsPanel?
    case ToggleDraggable => Dropdown(m) == Some(OptionsPanel(true))
  }

  /** Every event of the sequence is raised by an element on screen at that moment. */
  predicate Feasible(m: Menu, events: seq<Event>)
    decreases |events|
  {
    events == [] || (Available(m, events[0]) && Feasible(Apply(m, events[0]).menu, events[1..]))
  }

  /** The menu after a sequence of events, with the effects requested, in order. */
  function Run(m: Menu, events: seq<Event>): (r: (Menu, seq<Effect>))
    decreases |events|
  {
    if events == [] then (m, [])
    else
      var s := Apply(m, events[0]);
      var rest := Run(s.menu, events[1..]);
      (rest.0, (if s.effect == NoEffect then [] else [s.effect]) + rest.1)
  }

  /** While the menu renders nothing, only the auth and document listeners can fire, and
      neither touches the settings. */
  lemma HiddenEventsKeepSettings(m: Menu, e: Event)
    requires !m.settings.isVisible && Available(m, e)
    ensures Apply(m, e).menu.settings == m.settings
  {
    assert Dropdown(m) == None;
  }

  /** Once hidden, the menu stays hidden whatever the user does: the only control that shows
      it again is on the menu itself. */
  lemma {:induction false} HiddenStaysHidden(m: Menu, events: seq<Event>)
    requires !m.settings.isVisible && Feasible(m, events)
    ensures Render(Run(m, events).0) == Hidden
    decreases |events|
  {
    if events != [] {
      HiddenEventsKeepSettings(m, events[0]);
      HiddenStaysHidden(Apply(m, events[0]).menu, events[1..]);
    }
  }

  /** The hidden flag is saved and reloaded with the other settings, and both placements
      read the same entry: with this menu the only writer of the stored entry, a menu hidden
      in one placement mounts hidden in either. */
  lemma HiddenSurvivesRemount(m: Menu, store: Store, viewport: Point, embedded: bool, hasOnClose: bool)
    requires !m.settings.isVisible
    ensures Render(LoadSaved(Mount(embedded, hasOnClose), Persist(m, store), viewport)) == Hidden
  {
  }

  /** Turning visibility off from the options panel hides the menu at once. */
  lemma HideFromOptions(m: Menu)
    requires Available(m, ToggleVisible)
    ensures Render(Apply(m, ToggleVisible).menu) == Hidden
  {
  }

  /** A press outside a visible menu leaves it on screen with its dropdown closed, in either
      placement. */
  lemma OutsideClickClosesDropdown(m: Menu)
    requires m.settings.isVisible
    ensures Render(Apply(m, MouseDown(false)).menu) != Hidden
    ensures Dropdown(Apply(m, MouseDown(false)).menu) == None
    ensures !Apply(m, MouseDown(false)).menu.isSettingsOpen
  {
  }

  /** The sidebar menu never enters a drag. */
  predicate SidebarNeverDrags(m: Menu) {
    m.embedded ==> !m.isDragging
  }

  lemma {:induction false} RunKeepsSidebarStill(m: Menu, events: seq<Event>)
    requires SidebarNeverDrags(m)
    ensures SidebarNeverDrags(Run(m, events).0)
    ensures Run(m, events).0.embedded == m.embedded
    decreases |events|
  {
    if events != [] {
      RunKeepsSidebarStill(Apply(m, events[0]).menu, events[1..]);
    }
  }

  /** A drag of the floating menu hides its dropdown; dropping it at `p` ends the drag,
      moves the menu to `p`, brings the dropdown back if it was open, and saves `p` unless it
      is the origin. */
  lemma DragAndDrop(m: Menu, p: Point, store: Store)
    requires CanDrag(m)
    ensures Dropdown(Apply(m, DragStart).menu) == None
    ensures var dropped := Apply(Apply(m, DragStart).menu, DragEnd(p)).menu;
      && !dropped.isDragging
      && dropped.position == p
      && (Dropdown(dropped).Some? <==> m.isOpen)
      && (ShouldPersistPosition(dropped.position, dropped.embedded) <==> p != Origin)
      && (p != Origin ==> Persist(dropped, store).position == Some(p))
  {
  }

  /** While a drag is in progress a click on the floating avatar changes nothing. */
  lemma AvatarIgnoredWhileDragging(m: Menu)
    requires !m.embedded && m.isDragging
    ensures Apply(m, AvatarClick) == Step(m, NoEffect)
  {
  }

  /** A link in the dropdown closes it and calls `onClose` exactly when one was given. */
  lemma LinkClosesMenu(m: Menu)
    ensures !Apply(m, LinkClick).menu.isOpen
    ensures Dropdown(Apply(m, LinkClick).menu) == None
    ensures Apply(m, LinkClick).effect == (if m.hasOnClose then CallOnClose else NoEffect)
  {
  }
}

=== FILE: wrappers.dfy ===
/** The optional values of the TypeScript code (`value?: T`, `T | null`). */
module Wrappers {

  datatype Option<+T> = None | Some(value: T) {

    /** The wrapped value, or `default` when there is none. */
    function GetOr(default: T): (r: T)
      ensures Some? ==> r == value
      ensures None? ==> r == default
    {
      match this
      case Some(v) => v
      case None => default
    }
  }
}
